=== FILE: README.md ===
# Local library catalogue: access policy, accounts, dashboard and front-end formatters

A Dafny model of the decision and formatting logic of a Django REST / React
library catalogue.

- **Permissions** (`permissions.dfy`): the custom permission `IsLibrarian`.
  GET, HEAD and OPTIONS are open to everyone. Every other method is open
  only to members of the group named exactly "Librarians". The request's
  view is never consulted, so the model's predicate takes only the method
  and the caller.
- **Endpoints** (`endpoints.dfy`): the permission classes each view declares
  and how the framework reports a failed check. Every class in the list must
  allow the request. The callers are the two outcomes of authentication:
  anonymous (no credentials) or an authenticated user with their groups.
  An anonymous caller is told "not authenticated" (401), an authenticated
  one "forbidden" (403). The book view set declares no
  class, so it falls back on the project's default permission setting,
  which is not among the source files. The book API tests expect anonymous
  writes to succeed, so the model takes that default to be the empty list.
- **Registration** (`registration.dfy`): the user store is a map from
  username to group names. The register handler checks permissions first,
  then validates (a taken username is a 400 with a field error), then saves
  exactly one user and answers with the user and a fixed message. Librarian
  registration is the same flow behind `IsLibrarian`, and its new user
  joins "Librarians". Logout, for an authenticated caller, adds the refresh
  token to the blacklist and answers "Success".
- **Tokens** (`tokens.dfy`): `get_token` adds a boolean `isLibrarian` claim
  to the token library's claims. The claim is computed once, from the
  user's groups at issuance.
- **Dashboard** (`dashboard.dfy`, `dashboard_cases.dfy`): the six counts of
  the `index` view. Two of them use `icontains`, modelled as ASCII
  lower-casing followed by a substring search (`text.dfy`). The counts are
  pure functions of the catalogue, so computing them changes nothing. The
  two fixtures of the test suite are checked as concrete lemmas.
- **AuthContext** (`auth_context.dfy`): the front end's three-field
  authentication state, with its initial value, mount effect, login and
  logout, and the invariant that the librarian flag is only raised while
  authenticated.
- **Front-end formatters** (`author_create.dfy`, `author_list_item.dfy`,
  `author_details.dfy`, `book_details.dfy`):
  - `cleanData` and the redirect path after an author is created;
  - the author list entry's name and date texts (`null`/`undefined` show as
    "--");
  - the author page's date texts (any falsy value shows as "-") and its
    librarian-only links;
  - the book page's author label, author link and genre line.

  The author record the forms and the list share is declared once, in
  `custom_types.dfy`.
- **JavaScript values** (`js_values.dfy`): the JavaScript values these
  formatters meet (`undefined`, `null`, booleans, integers, strings). The
  model covers string conversion by `+`, truthiness, `== null` and
  `=== true`, and React's rendering of `null`/`undefined`/booleans as
  nothing.
- **Consistency** (`consistency.dfy`): lemmas that tie the parts together.
  The token claim, the server's permission check and the links shown on
  the author page all rest on one test.

Facts of the code that the model follows:

- Book writes are unrestricted. `catalog/book_api.py` declares no
  permission class, and `catalog/tests/test_book_api.py:34-77` expect
  anonymous creates, updates and deletes to succeed.
- `num_fantasy_genres` counts genres whose name contains "fantasy", not
  books.
- `catalog/urls.py` names views and a token view class that `catalog/api.py`
  and `catalog/custom_tokens.py` do not define. The model follows the view
  and serializer classes as they are defined.

## Model

| member | source | states |
|---|---|---|
| Permissions.PermittedMethods | catalog/permissions.py:7-28 | The methods an actor may use are exactly GET, HEAD and OPTIONS, or all seven methods for a member of "Librarians" |
| Permissions.HasPermission | catalog/permissions.py:7-28 | `has_permission` grants a method exactly when it is in the actor's permitted set (GET, HEAD and OPTIONS, plus every other method for "Librarians"), for every method and actor |
| Permissions.SafeMethodsAlwaysPermitted | catalog/permissions.py:8-16 | A safe method is permitted for every actor, anonymous included |
| Permissions.UnsafeMethodIffLibrarian | catalog/permissions.py:17-22 | A non-safe method is permitted if and only if the caller is authenticated and in the group named exactly "Librarians" |
| Permissions.AnonymousDeniedWrites | catalog/permissions.py:24-28 | Anonymous callers are denied every non-safe method |
| Permissions.LibrarianPermittedEverything | catalog/permissions.py:17-22 | A member of "Librarians" is permitted every method, safe or not |
| Permissions.PermissionMonotonic | catalog/permissions.py:8-28 | Gaining groups never turns a permission into a denial |
| Permissions.OtherGroupsIrrelevant | catalog/permissions.py:17 | Adding a group other than "Librarians" never changes the decision |
| Endpoints.PermissionClasses | catalog/api.py:16-54 | Each endpoint declares at most one class: `IsLibrarian` guards exactly the author view set and librarian registration, `AllowAny` exactly plain registration, `IsAuthenticated` exactly logout, and only the book view set (catalog/book_api.py:6-11) has none |
| Endpoints.Allows | catalog/api.py:16-54 | `IsLibrarian` lets through exactly the actor's permitted methods, `AllowAny` everything, `IsAuthenticated` exactly authenticated callers |
| Endpoints.Denial | catalog/tests/test_api.py:444-486 | A denial is "not authenticated" exactly for an anonymous caller, otherwise "forbidden" |
| Endpoints.CheckPermissions | catalog/api.py:16-18 | A request passes exactly when every declared permission class allows it; a failure is reported as the caller's denial |
| Endpoints.DenialStatus | catalog/tests/test_api.py:92-104 | A denial answers 401 exactly when the caller is not authenticated, and 403 when an authenticated caller is forbidden |
| Endpoints.ViewSetStatus | catalog/api.py:12-19 | A permitted view-set action answers its success code (201 create, 204 delete, 200 otherwise); a denied one answers 401 for an anonymous caller and 403 for an authenticated one |
| Endpoints.AuthorReadsOpen | catalog/api.py:12-19 | Listing and retrieving authors answers 200 to every anonymous or authenticated caller |
| Endpoints.AuthorWritesIffLibrarian | catalog/api.py:16-18 | Creating, updating or deleting an author is permitted, and succeeds, exactly for members of "Librarians" |
| Endpoints.AuthorWriteDenials | catalog/tests/test_api.py:92-104 | A denied author write answers 401 when anonymous and 403 for an authenticated non-librarian |
| Endpoints.BooksUnrestricted | catalog/book_api.py:6-11 | Every book request from an anonymous or authenticated caller passes the permission check and answers its success code, writes included |
| Endpoints.AnonymousBookStatuses | catalog/tests/test_book_api.py:27-77 | Anonymous book list and retrieve answer 200, create 201, update 200 and delete 204 |
| Endpoints.RegisterOpen | catalog/api.py:35-37 | Plain registration passes the permission check for every anonymous or authenticated caller and every method |
| Endpoints.RegisterLibrarianGuard | catalog/api.py:52-54 | Librarian registration is guarded exactly like author writes; a POST passes exactly for librarians |
| Endpoints.LogoutNeedsAuthentication | catalog/api.py:23-25 | Logout passes exactly for authenticated callers, whatever their groups; anonymous callers are "not authenticated" |
| Registration.InitialGroups | catalog/tests/test_api.py:414-520 | A new user gets no group other than "Librarians", and is in "Librarians" exactly when registered through the librarian endpoint, as the registration tests check by counting the user's "Librarians" groups (0 after plain registration, 1 after librarian registration) |
| Registration.Validate | catalog/api.py:40-41 | Validation reports no error exactly when the username is not yet taken |
| Registration.RegisterPost | catalog/api.py:39-46 | A taken username answers 400 with the username error and leaves the store unchanged; otherwise exactly one user is added, with the endpoint's groups, and the answer is 200 with that user and the fixed message |
| Registration.HandleRegister | catalog/api.py:33-56 | The store changes exactly when the check passes, the method is POST and the name is new, and then only by the new user; the answer is 401/403 exactly for the two denials, 400 exactly for a duplicate, 405 exactly for a permitted method without a handler |
| Registration.RegisteredUserIsNoLibrarian | catalog/tests/test_api.py:414-430 | A plainly registered user exists, has no groups and is not a librarian |
| Registration.RegisteredLibrarianIsLibrarian | catalog/api.py:48-56 | A librarian registering a new name creates exactly one user, who is in "Librarians", with the fixed message |
| Registration.DuplicateRegistrationRejected | catalog/tests/test_api.py:371-393 | Registering a taken username on either endpoint answers 400 with "A user with that username already exists." and creates nobody |
| Registration.HandleLogout | catalog/api.py:22-29 | An authenticated POST blacklists the refresh token and answers "Success"; nothing else changes the blacklist; an anonymous caller gets 401; an authenticated OPTIONS gets the metadata and any other method 405 |
| Registration.LogoutIdempotent | catalog/api.py:26-29 | A second logout with the same refresh token leaves the blacklist as the first left it |
| Tokens.GetToken | catalog/custom_tokens.py:10-19 | The token has the base claims plus `isLibrarian`; the claim is boolean and `True` exactly for members of "Librarians"; every other claim is unchanged |
| Tokens.IssueToken | catalog/custom_tokens.py:21-23 | A token is issued exactly for a known user with a matching password, built from that user's current groups |
| Tokens.ClaimMatchesPermission | catalog/custom_tokens.py:14-17 | The claim equals the permission decision for any non-safe method |
| Tokens.ClaimFixedAtIssuance | catalog/custom_tokens.py:10-19 | A token issued before the user joins "Librarians" says `False`, one issued after says `True` |
| Dashboard.Index | catalog/views.py:13-33 | The book, copy and author counts are the collection sizes; the available, fantasy and "lord of the rings" counts are bounded by their collections |
| Dashboard.IndexCountsMatchingRecords | catalog/views.py:17-21 | Each filtered count is the number of records passing its filter: status 'a', a genre name containing "fantasy" in any case, a title containing "lord of the rings" in any case |
| Dashboard.CountIfIsMatchingSize | catalog/views.py:17-21 | Counting with a filter equals the size of the set of matching positions |
| Dashboard.AddUnavailableInstance | catalog/views.py:14-17 | Adding a copy that is not available raises the copy count by one and changes no other count |
| Dashboard.AddAvailableInstance | catalog/views.py:14-17 | Adding an available copy raises both the copy count and the available count by one |
| DashboardCases.FantasyMatches | catalog/views.py:19 | "Fantasy" and "High Fantasy" match the fantasy filter, "Science Fiction" does not |
| DashboardCases.LotrMatches | catalog/views.py:21 | "Lord of the rings" and "Lord of The Rings" both match the title filter |
| DashboardCases.HomePageCounts | catalog/tests/test_api.py:701-820 | The home page fixture gives (8, 14, 9, 2, 2, 1) |
| DashboardCases.IndexViewCounts | catalog/tests/test_views.py:360-455 | The index view fixture gives 7 books, 6 copies, 0 available, 4 authors, 1 fantasy genre, 1 matching title |
| Text.Contains | catalog/views.py:19-21 | The search succeeds exactly when the needle occurs at some position of the text |
| Text.IContainsIgnoresCase | catalog/views.py:19-21 | `icontains` holds exactly when the needle matches at some position with every letter compared regardless of ASCII case; it is the contract of `Text.IContains` |
| AuthContext.Login | locallibrary-frontend/src/contexts/AuthContext.js:32-36 | Login sets the state to authenticated and copies `user_id` and `isLibrarian` from the decoded token |
| AuthContext.Logout | locallibrary-frontend/src/contexts/AuthContext.js:39-43 | Logout yields exactly the initial state, whatever the state was |
| AuthContext.Mount | locallibrary-frontend/src/contexts/AuthContext.js:18-29 | Mounting is authenticated exactly when a token is stored, copies its fields, and gives the initial state otherwise |
| AuthContext.InitialIsLoggedOut | locallibrary-frontend/src/contexts/AuthContext.js:13-15 | The initial state is not authenticated, has an empty user id and is not a librarian |
| AuthContext.RunConsistent | locallibrary-frontend/src/contexts/AuthContext.js:13-43 | After mounting and any sequence of logins and logouts, a truthy librarian flag implies authenticated |
| AuthContext.LogoutIdempotent | locallibrary-frontend/src/contexts/AuthContext.js:39-43 | Logging out twice is logging out once |
| AuthContext.LoginThenLogout | locallibrary-frontend/src/contexts/AuthContext.js:32-43 | A login followed by a logout equals a logout alone |
| AuthContext.RunEndingInLogout | locallibrary-frontend/src/contexts/AuthContext.js:39-43 | Any history ending in a logout leaves the initial state |
| AuthContext.RunEndingInLogin | locallibrary-frontend/src/contexts/AuthContext.js:32-36 | Any history ending in a login leaves exactly the state that login alone gives |
| AuthorCreate.CleanField | locallibrary-frontend/src/components/pages/AuthorCreate.tsx:26-29 | An empty string becomes `null`; any other value passes unchanged; the result is never the empty string |
| AuthorCreate.CleanData | locallibrary-frontend/src/components/pages/AuthorCreate.tsx:25-31 | No cleaned field is the empty string, and data without empty fields is returned unchanged |
| AuthorCreate.CleanDataIdempotent | locallibrary-frontend/src/components/pages/AuthorCreate.tsx:25-31 | Cleaning twice is cleaning once |
| AuthorCreate.CleanFieldsIndependent | locallibrary-frontend/src/components/pages/AuthorCreate.tsx:26-29 | Changing one input field changes only that field of the cleaned data |
| AuthorCreate.CleanFieldChangesOnlyEmpty | locallibrary-frontend/src/components/pages/AuthorCreate.tsx:26-29 | A field is changed if and only if it is the empty string |
| AuthorCreate.RedirectPath | locallibrary-frontend/src/components/pages/AuthorCreate.tsx:19-21 | The redirect path starts with "/authors/" |
| AuthorCreate.RedirectPathNamesAuthor | locallibrary-frontend/src/components/pages/AuthorCreate.tsx:19-21 | For a numeric id up to `Number.MAX_SAFE_INTEGER` (2^53 - 1), what follows "/authors/" is all digits and reads back as that id |
| AuthorListItem.NameLabel | locallibrary-frontend/src/components/AuthorListItem.js:10-11 | The name is the rendered last name, a comma, then the rendered first name |
| AuthorListItem.NameLabelReadBack | locallibrary-frontend/src/components/AuthorListItem.js:10-11 | For string names whose last name holds no ',', the text's first ',' comes right after the last name, and splitting there gives back the last and the first name |
| AuthorListItem.NameLabelInjective | locallibrary-frontend/src/components/AuthorListItem.js:10-11 | For string names whose last names hold no ',', two name texts are equal exactly when both names are |
| AuthorListItem.DateText | locallibrary-frontend/src/components/AuthorListItem.js:15-21 | `null` or `undefined` shows as "--"; a string keeps its length and characters, with every '-' shown as '/', and has no '-' left |
| AuthorListItem.DateTextStable | locallibrary-frontend/src/components/AuthorListItem.js:15 | Formatting an already formatted date changes nothing |
| AuthorListItem.EmptyDateIsNotMissing | locallibrary-frontend/src/components/AuthorListItem.js:15-21 | An empty date shows as "", while `null` and `undefined` show as "--" |
| AuthorListItem.IsoDateShown | locallibrary-frontend/src/components/AuthorListItem.js:15 | "1920-01-02" shows as "1920/01/02" |
| AuthorDetails.DateText | locallibrary-frontend/src/components/pages/AuthorDetails.tsx:53 | A falsy date shows as "-"; a non-empty one keeps its length and characters, with every '-' shown as '/' |
| AuthorDetails.FalsyDatesShowDash | locallibrary-frontend/src/components/pages/AuthorDetails.tsx:53 | `null`, `undefined` and "" all show as "-" |
| AuthorDetails.ShownLinks | locallibrary-frontend/src/components/pages/AuthorDetails.tsx:34-52 | Links are shown exactly when `isLibrarian === true`, and then they are the url plus "/update" and "/delete" |
| AuthorDetails.OnlyTrueShowsLinks | locallibrary-frontend/src/components/pages/AuthorDetails.tsx:52 | Truthy values other than `true` (1, "true") show no links |
| BookDetails.AuthorLabel | locallibrary-frontend/src/components/pages/BookDetailsPresentation.tsx:33 | For string names the label is last name, ", ", first name |
| BookDetails.AuthorLabelReadBack | locallibrary-frontend/src/components/pages/BookDetailsPresentation.tsx:33 | For string names whose last name holds no ", ", the label's first ", " comes right after the last name, and splitting there gives back the last and the first name |
| BookDetails.AuthorLabelInjective | locallibrary-frontend/src/components/pages/BookDetailsPresentation.tsx:33 | For string names whose last names hold no ", ", two labels are equal exactly when both names are |
| BookDetails.AuthorLabelSpellsMissingNames | locallibrary-frontend/src/components/pages/BookDetailsPresentation.tsx:33 | A `null` or `undefined` name is spelled out by the concatenation, as in "null, John" and "Doe, undefined" |
| BookDetails.AuthorLink | locallibrary-frontend/src/components/pages/BookDetailsPresentation.tsx:32 | The author link starts with "../authors/" |
| BookDetails.AuthorLinkNamesAuthor | locallibrary-frontend/src/components/pages/BookDetailsPresentation.tsx:32 | For a numeric author id up to `Number.MAX_SAFE_INTEGER` (2^53 - 1), the link's suffix is all digits and reads back as that id |
| BookDetails.AuthorLinkInjective | locallibrary-frontend/src/components/pages/BookDetailsPresentation.tsx:32 | Different numeric author ids below 10^21 give different links |
| BookDetails.SortedKeys | locallibrary-frontend/src/components/pages/BookDetailsPresentation.tsx:44 | The array-index keys (below 2^32 - 1) are listed once each, in strictly ascending order, as `Object.values` lists them |
| BookDetails.GenreNames | locallibrary-frontend/src/components/pages/BookDetailsPresentation.tsx:44 | There is one name per genre |
| BookDetails.GenreNamesInIdOrder | locallibrary-frontend/src/components/pages/BookDetailsPresentation.tsx:44 | The names are listed by strictly ascending genre id, for array-index ids (below 2^32 - 1) |
| BookDetails.GenreLineSmall | locallibrary-frontend/src/components/pages/BookDetailsPresentation.tsx:44 | No genres give an empty line; one genre gives just its name |
| BookDetails.GenreLineSeparators | locallibrary-frontend/src/components/pages/BookDetailsPresentation.tsx:44 | With n genres whose names contain no ", ", the line holds exactly n - 1 separators |
| Text.Join | locallibrary-frontend/src/components/pages/BookDetailsPresentation.tsx:44 | Joining no parts gives "", one part gives that part, and the result always starts with the first part |
| BookDetails.GenreLine | locallibrary-frontend/src/components/pages/BookDetailsPresentation.tsx:44 | No genres give an empty line; otherwise the line starts with the name of the genre of smallest id, for array-index ids (below 2^32 - 1) |
| Text.JoinSeparatorCount | locallibrary-frontend/src/components/pages/BookDetailsPresentation.tsx:44 | Joining n parts that contain no ", " with ", " gives exactly n - 1 occurrences of it |
| Text.ReplaceChar | locallibrary-frontend/src/components/AuthorListItem.js:15 | Replacing a character keeps the length and changes exactly the positions holding it |
| Consistency.ClaimMatchesAuthorWrites | catalog/custom_tokens.py:14-17 | The token claim is `True` exactly when the server would accept an author write from the user |
| Consistency.LinksShownIffWritesPermitted | locallibrary-frontend/src/components/pages/AuthorDetails.tsx:52 | After login with a freshly issued token, the author page shows its links exactly when the server would permit updating and deleting the author |
| Consistency.LoginKeepsUserId | locallibrary-frontend/src/contexts/AuthContext.js:34 | The user id kept after login is the one the token carries |
| Consistency.RegistrationThenToken | catalog/custom_tokens.py:14-17 | A plainly registered user's first token says `False`; a librarian-registered user's says `True` |

## Left out

- Book renewal bounds, copy status and overdue logic, `display_genre` and the `__str__` formats: the forms and models modules that implement them are not part of this model.
- The home page, borrowed-books and all-borrowed-books API views: `catalog/urls.py` imports them, but `catalog/api.py` does not define them.
- Failed authentication: a request whose credentials fail authentication (an expired or malformed Bearer token, or one naming a missing user) is answered 401 by the authenticator on every endpoint, before any permission class runs. The model's actors are the outcomes of absent or successful authentication.
- HTTP methods other than GET, HEAD, OPTIONS, POST, PUT, PATCH and DELETE (Django also dispatches TRACE): the framework treats them as non-safe, so `IsLibrarian` refuses them to non-librarians and a librarian then gets 405. They are not modelled.
- JWT signing, expiry, refresh, the access/refresh pair and blacklist storage: these belong to the token library. A token is a map of claims and the blacklist is a set of token strings.
- The token endpoint's password check: password hashing belongs to Django's authentication, so `IssueToken` takes whether the password matches as an input.
- Registration validation other than a taken username: `catalog/serializers.py` does not hold the registration serializers. Only the duplicate-username error is modelled. The model also omits passwords and the other user fields, and database-assigned user ids.
- Registration.HandleLogout: a malformed or already blacklisted refresh token is not modelled. The token library raises on it, the view does not catch the error, and the caller gets a server error (500) with the blacklist unchanged; the model answers 200 and adds the token to the set again.
- The 404 and 400 paths of the author and book view sets: the view-set statuses assume valid data and an existing id. Serialisation of the entities is not modelled.
- ORM querysets, pagination, the list and detail views and templates: these are framework behaviour.
- Unicode case folding in `icontains`: the model lower-cases ASCII letters only.
- The book view set's permission: the project's default permission setting is not part of this model. The empty class list for books is inferred from the book API tests, which expect anonymous writes to succeed.
- JsValues.IntToString: numbers are modelled as unbounded integers and printed as their exact digits. That is JavaScript's output up to `Number.MAX_SAFE_INTEGER` (2^53 - 1) only: above it `String` prints the shortest digits that read back as the same double, and from 10^21 on it writes exponent form ("1e+21").
- AuthorCreate.RedirectPathNamesAuthor: stated only for ids up to `Number.MAX_SAFE_INTEGER`, where `String` prints the exact digits.
- BookDetails.AuthorLinkNamesAuthor: stated only for ids up to `Number.MAX_SAFE_INTEGER`, where `String` prints the exact digits.
- BookDetails.AuthorLinkInjective: stated only for ids below 10^21, where `String` does not use exponent form.
- `localStorage` and `jwt_decode`: the mount effect receives the decoded stored token, or nothing.
- React's batching of the three state updates: each transition is treated as one atomic step.
- HTTP calls, routing and rendering of the other front-end pages: they hold no logic beyond what is modelled here. `AuthorDetails.js` is an older twin of `AuthorDetails.tsx`, with the same date expression.
- Genre map keys other than array indices: the model's keys are the array indices 0 to 2^32 - 2, which `Object.values` lists in ascending order ahead of every other key. Integer keys from 2^32 - 1 on are listed in insertion order, and that order is not modelled.
- BookDetails.SortedKeys: the ascending order is stated for array-index keys (below 2^32 - 1) only.
- BookDetails.GenreNamesInIdOrder: the id order is stated for array-index ids (below 2^32 - 1) only.
- BookDetails.GenreLine: the smallest-id-first promise is stated for array-index ids (below 2^32 - 1) only.

=== FILE: auth_context.dfy ===
/**
 The front end's authentication context: three pieces of React state
 (`isAuthenticated`, `user_id`, `isLibrarian`) set together by the mount
 effect, `LoginFunction` and `LogoutFunction`. Decoding a token is taken as
 done: transitions receive the decoded payload, and the mount effect
 receives the payload of the stored access token, if there is one.
 */
module AuthContext {
  import opened JsValues

  type Payload = map<string, JsValue>

  datatype Option<T> = None | Some(value: T)

  datatype AuthState = AuthState(isAuthenticated: bool, userId: JsValue, isLibrarian: JsValue)

  /** The `useState` initial values. */
  const Initial := AuthState(false, Str(""), Bool(false))

  /** `LoginFunction`: copies `user_id` and `isLibrarian` from the decoded token. */
  function Login(token: Payload): (s: AuthState)
    ensures s.isAuthenticated
    ensures s.userId == Member(token, "user_id")
    ensures s.isLibrarian == Member(token, "isLibrarian")
  {
    AuthState(true, Member(token, "user_id"), Member(token, "isLibrarian"))
  }

  /** `LogoutFunction`: every field back to its initial value, whatever the state was. */
  function Logout(s: AuthState): (r: AuthState)
    ensures r == Initial
  {
    AuthState(false, Str(""), Bool(false))
  }

  /** The mount effect: a stored token logs in, its absence resets. */
  function Mount(stored: Option<Payload>): (s: AuthState)
    ensures s.isAuthenticated <==> stored.Some?
    ensures stored.None? ==> s == Initial
    ensures stored.Some? ==>
      s.userId == Member(stored.value, "user_id") && s.isLibrarian == Member(stored.value, "isLibrarian")
  {
    match stored
    case None => Initial
    case Some(token) => Login(token)
  }

  datatype Event = LoginEvent(token: Payload) | LogoutEvent

  function Apply(s: AuthState, e: Event): AuthState {
    match e
    case LoginEvent(token) => Login(token)
    case LogoutEvent => Logout(s)
  }

  /** The state after mounting and then handling `events` in order. */
  function Run(stored: Option<Payload>, events: seq<Event>): AuthState
    decreases |events|
  {
    if |events| == 0 then Mount(stored)
    else Apply(Run(stored, events[..|events| - 1]), events[|events| - 1])
  }

  /** The librarian flag is only ever raised together with the authenticated flag. */
  predicate Consistent(s: AuthState) {
    Truthy(s.isLibrarian) ==> s.isAuthenticated
  }

  /** Every state reachable from mounting satisfies `Consistent`. */
  lemma {:induction false} RunConsistent(stored: Option<Payload>, events: seq<Event>)
    ensures Consistent(Run(stored, events))
    decreases |events|
  {
    if |events| > 0 {
      RunConsistent(stored, events[..|events| - 1]);
    }
  }

  /** The initial state is logged out and not a librarian. */
  lemma InitialIsLoggedOut()
    ensures !Initial.isAuthenticated && Initial.userId == Str("") && !Truthy(Initial.isLibrarian)
  {
  }

  /** Logging out twice is logging out once. */
  lemma LogoutIdempotent(s: AuthState)
    ensures Logout(Logout(s)) == Logout(s)
  {
  }

  /** Logging in and then out leaves no trace of the login. */
  lemma LoginThenLogout(s: AuthState, token: Payload)
    ensures Logout(Login(token)) == Logout(s)
  {
  }

  /** Whatever happened before, a logout event ends the run in the initial state. */
  lemma RunEndingInLogout(stored: Option<Payload>, events: seq<Event>)
    requires |events| > 0 && events[|events| - 1] == LogoutEvent
    ensures Run(stored, events) == Initial
  {
  }

  /** A run's state depends only on its last login or logout event. */
  lemma {:induction false} RunEndingInLogin(stored: Option<Payload>, events: seq<Event>, token: Payload)
    requires |events| > 0 && events[|events| - 1] == LoginEvent(token)
    ensures Run(stored, events) == Run(None, [LoginEvent(token)])
  {
    assert [LoginEvent(token)][..0] == [];
  }
}

=== FILE: author_create.dfy ===
/**
 The author creation page: before posting, `cleanData` turns every empty
 form field into `null`; after the post, the page redirects to the new
 author's detail path.
 */
module AuthorCreate {
  import opened JsValues
  import opened CustomTypes
  import Text

  /** `field === "" ? null : field` */
  function CleanField(f: OptString): (r: OptString)
    ensures r != Str("")
    ensures f != Str("") ==> r == f
    ensures f == Str("") ==> r == Null
  {
    if f == Str("") then Null else f
  }

  predicate NoEmptyField(d: AuthorDetails) {
    && d.firstName != Str("")
    && d.lastName != Str("")
    && d.dateOfBirth != Str("")
    && d.dateOfDeath != Str("")
  }

  /** `cleanData`: each of the four fields cleaned on its own. */
  function CleanData(d: AuthorDetails): (r: AuthorDetails)
    ensures NoEmptyField(r)
    ensures NoEmptyField(d) ==> r == d
  {
    AuthorDetails(
      CleanField(d.firstName),
      CleanField(d.lastName),
      CleanField(d.dateOfBirth),
      CleanField(d.dateOfDeath))
  }

  /** Cleaning twice is cleaning once. */
  lemma CleanDataIdempotent(d: AuthorDetails)
    ensures CleanData(CleanData(d)) == CleanData(d)
  {
  }

  /** Fields are cleaned independently: changing one field of the input changes only that field of the output. */
  lemma CleanFieldsIndependent(d: AuthorDetails, f: OptString)
    ensures CleanData(d.(firstName := f)) == CleanData(d).(firstName := CleanField(f))
    ensures CleanData(d.(lastName := f)) == CleanData(d).(lastName := CleanField(f))
    ensures CleanData(d.(dateOfBirth := f)) == CleanData(d).(dateOfBirth := CleanField(f))
    ensures CleanData(d.(dateOfDeath := f)) == CleanData(d).(dateOfDeath := CleanField(f))
  {
  }

  /** Only empty strings change: `null`, `undefined` and non-empty strings pass through. */
  lemma CleanFieldChangesOnlyEmpty(f: OptString)
    ensures CleanField(f) != f <==> f == Str("")
  {
  }

  const AuthorsPath := "/authors/"

  /** `"/authors/" + AuthorID`, the redirect after a successful creation. */
  function RedirectPath(authorId: JsValue): (path: string)
    ensures |path| >= |AuthorsPath| && path[..|AuthorsPath|] == AuthorsPath
  {
    AuthorsPath + ToJsString(authorId)
  }

  /**
   For a numeric id up to `Number.MAX_SAFE_INTEGER` the redirect path names
   exactly that id. Above it `String` rounds the digits, so the path may name
   another author.
   */
  lemma RedirectPathNamesAuthor(id: nat)
    requires id <= MaxSafeInteger
    ensures var path := RedirectPath(Int(id));
      && path[..|AuthorsPath|] == AuthorsPath
      && Text.AllDigits(path[|AuthorsPath|..])
      && Text.ParseDecimal(path[|AuthorsPath|..]) == id
  {
    IntSuffixRoundTrip(AuthorsPath, id);
  }
}

=== FILE: author_details.dfy ===
/**
 The author detail page: a falsy date (`null`, `undefined` or "") shows as
 "-", a present one with every '-' shown as '/'; the Update and Delete
 links appear only when the context's `isLibrarian` is exactly `true`.
 */
module AuthorDetails {
  import opened JsValues
  import Text

  const MissingDate := "-"

  /** `date ? date.replace(/-/g, "/") : "-"` */
  function DateText(date: OptString): (r: string)
    ensures !Truthy(date) ==> r == MissingDate
    ensures Truthy(date) ==> |r| == |date.s| && '-' !in r
    ensures Truthy(date) ==>
      forall i :: 0 <= i < |r| ==> r[i] == (if date.s[i] == '-' then '/' else date.s[i])
  {
    if Truthy(date) then
      Text.ReplaceCharRemoves(date.s, '-', '/');
      Text.ReplaceChar(date.s, '-', '/')
    else
      MissingDate
  }

  /** Every falsy date reads "-": null, undefined and the empty string alike. */
  lemma FalsyDatesShowDash()
    ensures DateText(Null) == MissingDate
    ensures DateText(Undefined) == MissingDate
    ensures DateText(Str("")) == MissingDate
  {
  }

  /** `librarianLinks()`: the targets of the Update and Delete links, in that order. */
  function LibrarianLinks(url: string): seq<string> {
    [url + "/update", url + "/delete"]
  }

  /** `isLibrarian === true ? librarianLinks() : null` */
  function ShownLinks(isLibrarian: JsValue, url: string): (links: seq<string>)
    ensures |links| > 0 <==> StrictlyTrue(isLibrarian)
    ensures |links| > 0 ==> links == [url + "/update", url + "/delete"]
  {
    if StrictlyTrue(isLibrarian) then LibrarianLinks(url) else []
  }

  /** A truthy value that is not `true` itself (such as 1 or "true") shows no links. */
  lemma OnlyTrueShowsLinks()
    ensures ShownLinks(Int(1), "/authors/1") == []
    ensures ShownLinks(Str("true"), "/authors/1") == []
    ensures ShownLinks(Undefined, "/authors/1") == []
    ensures ShownLinks(Bool(true), "/authors/1") == ["/authors/1/update", "/authors/1/delete"]
  {
    assert "/authors/1" + "/update" == "/authors/1/update";
    assert "/authors/1" + "/delete" == "/authors/1/delete";
  }
}

=== FILE: author_list_item.dfy ===
/**
 One entry of the author list: "last,first" followed by the two dates in
 parentheses. A missing date (`null` or `undefined`) shows as "--"; a
 present one has every '-' shown as '/'.
 */
module AuthorListItem {
  import opened JsValues
  import opened CustomTypes
  import Text

  const MissingDate := "--"

  /**
   The name text. JSX drops the line break between the comma and the first
   name, so no space separates them; a missing name renders as nothing.
   */
  function NameLabel(item: AuthorDetails): (shown: string)
    ensures |shown| == |RenderText(item.lastName)| + 1 + |RenderText(item.firstName)|
    ensures shown[|RenderText(item.lastName)|] == ','
    ensures shown[..|RenderText(item.lastName)|] == RenderText(item.lastName)
    ensures shown[|RenderText(item.lastName)| + 1..] == RenderText(item.firstName)
  {
    RenderText(item.lastName) + "," + RenderText(item.firstName)
  }

  /**
   The name text reads back: when the last name holds no ',', the text's first
   ',' is the one the list put there, and the text on either side of it is
   the last and the first name. A last name such as "Doe, Jr" breaks this:
   "Doe, Jr,John" splits as "Doe" and " Jr,John".
   */
  lemma {:induction false} NameLabelReadBack(item: AuthorDetails)
    requires item.firstName.Str? && item.lastName.Str?
    requires ',' !in item.lastName.s
    ensures var shown := NameLabel(item);
      var k := Text.FirstOccurrence(shown, ",");
      && k == |item.lastName.s|
      && shown[..k] == item.lastName.s
      && shown[k + 1..] == item.firstName.s
  {
    var last, first := item.lastName.s, item.firstName.s;
    var shown := last + "," + first;
    forall i | 0 <= i < |last|
      ensures !Text.OccursAt(shown, ",", i)
    {
      assert shown[i..i + 1] == [last[i]];
    }
    Text.FirstOccurrenceSplits(last, ",", first);
  }

  /** Two authors with string names, neither last name holding ',', get the same name text only when both names agree. */
  lemma {:induction false} NameLabelInjective(a: AuthorDetails, b: AuthorDetails)
    requires a.firstName.Str? && a.lastName.Str? && ',' !in a.lastName.s
    requires b.firstName.Str? && b.lastName.Str? && ',' !in b.lastName.s
    ensures NameLabel(a) == NameLabel(b) <==> a.firstName == b.firstName && a.lastName == b.lastName
  {
    NameLabelReadBack(a);
    NameLabelReadBack(b);
  }

  /** `date == null ? "--" : date.replace(/-/g, "/")` */
  function DateText(date: OptString): (r: string)
    ensures LooselyNull(date) ==> r == MissingDate
    ensures date.Str? ==> |r| == |date.s| && '-' !in r
    ensures date.Str? ==> forall i :: 0 <= i < |r| ==> r[i] == (if date.s[i] == '-' then '/' else date.s[i])
  {
    if LooselyNull(date) then MissingDate
    else
      Text.ReplaceCharRemoves(date.s, '-', '/');
      Text.ReplaceChar(date.s, '-', '/')
  }

  /** Formatting an already formatted date changes nothing. */
  lemma DateTextStable(date: OptString)
    requires date.Str?
    ensures DateText(Str(DateText(date))) == DateText(date)
  {
    Text.ReplaceCharIdempotent(date.s, '-', '/');
  }

  /** An empty date is present, not missing: it shows as "", not "--". */
  lemma EmptyDateIsNotMissing()
    ensures DateText(Str("")) == ""
    ensures DateText(Null) == MissingDate && DateText(Undefined) == MissingDate
  {
  }

  /** A date in ISO form shows with slashes: "1920-01-02" becomes "1920/01/02". */
  lemma IsoDateShown()
    ensures DateText(Str("1920-01-02")) == "1920/01/02"
  {
  }
}

=== FILE: book_details.dfy ===
/**
 The book detail page: the author shown and link, and the line listing the
 book's genres. The genres arrive as an object keyed by genre id.
 `Object.values` lists array-index keys (the integers from 0 to 2^32 - 2)
 in ascending order, ahead of all other keys, so for such ids the line
 follows ascending ids whatever order the genres were fetched in.
 */
module BookDetails {
  import opened JsValues
  import Text

  /** `last_name + ", " + first_name`, each converted as string concatenation converts it. */
  function AuthorLabel(firstName: OptString, lastName: OptString): (shown: string)
    ensures firstName.Str? && lastName.Str? ==> shown == lastName.s + ", " + firstName.s
  {
    ToJsString(lastName) + ", " + ToJsString(firstName)
  }

  /**
   The label reads back: when the last name holds no ", ", the label's first
   ", " is the one the page put there, and the text on either side of it is
   the last and the first name. A last name such as "Doe, Jr" breaks this:
   "Doe, Jr, John" splits as "Doe" and "Jr, John", and the label no longer
   tells the two names apart.
   */
  lemma {:induction false} AuthorLabelReadBack(firstName: string, lastName: string)
    requires !Text.Contains(lastName, ", ")
    ensures var shown := AuthorLabel(Str(firstName), Str(lastName));
      var k := Text.FirstOccurrence(shown, ", ");
      && k == |lastName|
      && shown[..k] == lastName
      && shown[k + 2..] == firstName
  {
    var shown := lastName + ", " + firstName;
    forall i | 0 <= i < |lastName|
      ensures !Text.OccursAt(shown, ", ", i)
    {
      if i + 2 <= |lastName| {
        assert shown[i..i + 2] == lastName[i..i + 2];
        assert !Text.OccursAt(lastName, ", ", i);
      } else {
        assert shown[i + 1] == ',';
      }
    }
    Text.FirstOccurrenceSplits(lastName, ", ", firstName);
  }

  /** Two authors whose last names hold no ", " get the same label only when both names agree. */
  lemma {:induction false} AuthorLabelInjective(first1: string, last1: string, first2: string, last2: string)
    requires !Text.Contains(last1, ", ") && !Text.Contains(last2, ", ")
    ensures AuthorLabel(Str(first1), Str(last1)) == AuthorLabel(Str(first2), Str(last2))
        <==> first1 == first2 && last1 == last2
  {
    AuthorLabelReadBack(first1, last1);
    AuthorLabelReadBack(first2, last2);
  }

  /** A missing name is spelled out by the concatenation: a null last name reads "null". */
  lemma AuthorLabelSpellsMissingNames()
    ensures AuthorLabel(Str("John"), Null) == "null, John"
    ensures AuthorLabel(Undefined, Str("Doe")) == "Doe, undefined"
  {
  }

  const AuthorsLinkPrefix := "../authors/"

  /** `"../authors/" + book.author` */
  function AuthorLink(bookAuthor: JsValue): (link: string)
    ensures |link| >= |AuthorsLinkPrefix| && link[..|AuthorsLinkPrefix|] == AuthorsLinkPrefix
  {
    AuthorsLinkPrefix + ToJsString(bookAuthor)
  }

  /**
   The link of a book with author id `n`, up to `Number.MAX_SAFE_INTEGER`,
   leads to author `n`. Above it `String` rounds the digits.
   */
  lemma AuthorLinkNamesAuthor(n: nat)
    requires n <= MaxSafeInteger
    ensures var link := AuthorLink(Int(n));
      && Text.AllDigits(link[|AuthorsLinkPrefix|..])
      && Text.ParseDecimal(link[|AuthorsLinkPrefix|..]) == n
  {
    IntSuffixRoundTrip(AuthorsLinkPrefix, n);
  }

  /**
   Two books link to the same author page exactly when they name the same
   author id, for ids below the exponent-form bound (distinct doubles print
   as distinct digits).
   */
  lemma AuthorLinkInjective(m: nat, n: nat)
    requires m < ExponentFormFrom && n < ExponentFormFrom
    ensures AuthorLink(Int(m)) == AuthorLink(Int(n)) <==> m == n
  {
    var k := |AuthorsLinkPrefix|;
    assert AuthorLink(Int(m))[k..] == Text.Decimal(m);
    assert AuthorLink(Int(n))[k..] == Text.Decimal(n);
    Text.DecimalInjective(m, n);
  }

  /** A smallest key, found by removing keys one at a time. */
  ghost function SmallestKey(keys: set<nat>): (k: nat)
    requires keys != {}
    ensures k in keys && forall x :: x in keys ==> k <= x
  {
    var x :| x in keys;
    if keys == {x} then
      x
    else
      var rest := SmallestKey(keys - {x});
      assert forall y :: y in keys ==> y == x || y in keys - {x};
      if x < rest then x else rest
  }

  /** The smallest key. */
  function MinKey(keys: set<nat>): (k: nat)
    requires keys != {}
    ensures k in keys && forall x :: x in keys ==> k <= x
  {
    assert SmallestKey(keys) in keys;
    var k :| k in keys && forall x :: x in keys ==> k <= x;
    k
  }

  /**
   The largest array index plus one. Integer keys from here on are ordinary
   property names, which `Object.values` lists in insertion order instead.
   */
  const ArrayIndexLimit: nat := 4294967295

  /** A genre id that JavaScript treats as an array index. */
  type GenreId = k: nat | k < ArrayIndexLimit

  /** The keys in ascending order, the order `Object.values` follows for array-index keys. */
  function SortedKeys(keys: set<GenreId>): (r: seq<GenreId>)
    ensures |r| == |keys|
    ensures forall x :: x in keys <==> x in r
    ensures forall i, j :: 0 <= i < j < |r| ==> r[i] < r[j]
    decreases |keys|
  {
    if keys == {} then []
    else
      var k: GenreId := MinKey(keys);
      var rest := SortedKeys(keys - {k});
      assert forall x :: x in keys <==> x == k || x in rest;
      assert forall j :: 0 <= j < |rest| ==> k < rest[j] by {
        forall j | 0 <= j < |rest|
          ensures k < rest[j]
        {
          assert rest[j] in keys - {k};
        }
      }
      [k] + rest
  }

  type GenreMap = map<GenreId, string>

  /** `Object.values(genres).map((genre) => genre.name)` */
  function GenreNames(genres: GenreMap): (names: seq<string>)
    ensures |names| == |genres|
  {
    var ids := SortedKeys(genres.Keys);
    seq(|ids|, i requires 0 <= i < |ids| => genres[ids[i]])
  }

  /** The genre line: the names joined with ", ", starting with the genre of smallest id. */
  function GenreLine(genres: GenreMap): (line: string)
    ensures |genres| == 0 ==> line == ""
    ensures |genres| >= 1 ==>
      (exists id :: && id in genres
                    && (forall j :: j in genres ==> id <= j)
                    && |genres[id]| <= |line| && line[..|genres[id]|] == genres[id])
  {
    var line := Text.Join(GenreNames(genres), Text.CommaSpace);
    if |genres| >= 1 then
      var ids := SortedKeys(genres.Keys);
      var id := ids[0];
      assert id in genres;
      assert forall j :: j in genres ==> id <= j by {
        forall j | j in genres
          ensures id <= j
        {
          assert j in ids;
          var t :| 0 <= t < |ids| && ids[t] == j;
          if t > 0 {
            assert ids[0] < ids[t];
          }
        }
      }
      assert GenreNames(genres)[0] == genres[id];
      line
    else
      line
  }

  /** Names are listed by ascending genre id, each name once per genre. */
  lemma GenreNamesInIdOrder(genres: GenreMap)
    ensures var ids := SortedKeys(genres.Keys);
      && |GenreNames(genres)| == |ids|
      && (forall i :: 0 <= i < |ids| ==> GenreNames(genres)[i] == genres[ids[i]])
      && (forall i, j :: 0 <= i < j < |ids| ==> ids[i] < ids[j])
  {
  }

  /** No genres: an empty line; one genre: just its name. */
  lemma GenreLineSmall(id: GenreId, name: string)
    ensures GenreLine(map[]) == ""
    ensures GenreLine(map[id := name]) == name
  {
    var one := map[id := name];
    assert one.Keys == {id};
    var ids := SortedKeys(one.Keys);
    assert ids == [id];
  }

  /** With n genres whose names contain no ", ", the line holds exactly n - 1 separators. */
  lemma GenreLineSeparators(genres: GenreMap)
    requires |genres| >= 1
    requires forall id :: id in genres ==> !Text.Contains(genres[id], Text.CommaSpace)
    ensures Text.Occurrences(GenreLine(genres), Text.CommaSpace) == |genres| - 1
  {
    var names := GenreNames(genres);
    var ids := SortedKeys(genres.Keys);
    forall k | 0 <= k < |names|
      ensures !Text.Contains(names[k], Text.CommaSpace)
    {
      assert ids[k] in genres;
    }
    Text.JoinSeparatorCount(names);
  }
}

=== FILE: consistency.dfy ===
/**
 Agreement between the pieces: the token claim, the back end's permission
 check and what the front end shows all rest on the same test, membership
 of the group "Librarians".
 */
module Consistency {
  import opened JsValues
  import opened Permissions
  import opened Endpoints
  import Registration
  import Tokens
  import AuthContext
  import AuthorDetails

  /** The claim is `True` exactly when the author endpoints would accept a write from the user. */
  lemma ClaimMatchesAuthorWrites(base: Tokens.Claims, groups: set<string>, act: Action)
    requires act != List && act != Retrieve
    ensures Tokens.GetToken(base, groups)[Tokens.IsLibrarianClaim] == Bool(true)
        <==> Decide(Authors, MethodOf(act), Authenticated(groups)) == Permit
  {
    AuthorWritesIffLibrarian(act, Authenticated(groups));
  }

  /**
   After logging in with a freshly issued token, the author page shows the
   Update and Delete links exactly when the back end would let the user
   update and delete that author.
   */
  lemma {:induction false} LinksShownIffWritesPermitted(base: Tokens.Claims, groups: set<string>, url: string)
    ensures var s := AuthContext.Login(Tokens.GetToken(base, groups));
      && s.isAuthenticated
      && (|AuthorDetails.ShownLinks(s.isLibrarian, url)| > 0
          <==> Decide(Authors, PUT, Authenticated(groups)) == Permit)
      && (|AuthorDetails.ShownLinks(s.isLibrarian, url)| > 0
          <==> Decide(Authors, DELETE, Authenticated(groups)) == Permit)
  {
    var t := Tokens.GetToken(base, groups);
    assert Member(t, Tokens.IsLibrarianClaim) == t[Tokens.IsLibrarianClaim];
    AuthorWritesIffLibrarian(Update, Authenticated(groups));
    AuthorWritesIffLibrarian(Destroy, Authenticated(groups));
  }

  /** The user id the front end keeps is the one the token library put in the token. */
  lemma LoginKeepsUserId(base: Tokens.Claims, groups: set<string>)
    requires "user_id" in base
    ensures AuthContext.Login(Tokens.GetToken(base, groups)).userId == base["user_id"]
  {
  }

  /** A plainly registered user's first token says `False`; a librarian-registered user's says `True`. */
  lemma {:induction false} RegistrationThenToken(
    a: Actor, reg: Registration.Registry, username: string, base: Tokens.Claims)
    requires username !in reg
    ensures var x := Registration.HandleRegister(Register, POST, a, reg, username);
      var t := Tokens.IssueToken(x.state, username, true, base);
      t.Issued? && t.claims[Tokens.IsLibrarianClaim] == Bool(false)
    ensures InLibrarians(a) ==>
      var x := Registration.HandleRegister(RegisterLibrarian, POST, a, reg, username);
      var t := Tokens.IssueToken(x.state, username, true, base);
      t.Issued? && t.claims[Tokens.IsLibrarianClaim] == Bool(true)
  {
    Registration.RegisteredUserIsNoLibrarian(a, reg, username);
    if InLibrarians(a) {
      Registration.RegisteredLibrarianIsLibrarian(a.groups, reg, username);
    }
  }
}

=== FILE: custom_types.dfy ===
/**
 Record types shared by the front-end components.
 */
module CustomTypes {
  import opened JsValues

  /** An author as the forms and lists handle it: every field typed `string | null | undefined`. */
  datatype AuthorDetails = AuthorDetails(
    firstName: OptString,
    lastName: OptString,
    dateOfBirth: OptString,
    dateOfDeath: OptString)
}

=== FILE: dashboard.dfy ===
/**
 The home page view `index`: six counts over the catalog's collections.
 Two of them filter with Django's case-insensitive `icontains` lookup,
 modelled with ASCII lower-casing. The view only reads the collections.
 */
module Dashboard {
  import Text

  datatype Author = Author(firstName: string, lastName: string)
  datatype Book = Book(title: string)
  /** A copy of a book; `status` is one of 'm', 'o', 'a', 'r' ('a' is "available"). */
  datatype BookInstance = BookInstance(imprint: string, status: char)
  datatype Genre = Genre(name: string)

  datatype Catalog = Catalog(
    books: seq<Book>,
    instances: seq<BookInstance>,
    authors: seq<Author>,
    genres: seq<Genre>)

  datatype Counts = Counts(
    numBooks: nat,
    numInstances: nat,
    numInstancesAvailable: nat,
    numAuthors: nat,
    numFantasyGenres: nat,
    numLotrBooks: nat)

  const AvailableStatus := 'a'
  const FantasyKeyword := "Fantasy"
  const LotrKeyword := "Lord of the rings"

  /** Number of elements satisfying `p`, counted from the back. */
  function CountIf<T>(s: seq<T>, p: T -> bool): (n: nat)
    ensures n <= |s|
  {
    if |s| == 0 then 0 else CountIf(s[..|s| - 1], p) + (if p(s[|s| - 1]) then 1 else 0)
  }

  /** The positions of the elements satisfying `p`. */
  function Matching<T>(s: seq<T>, p: T -> bool): set<int> {
    set i | 0 <= i < |s| && p(s[i])
  }

  /** Counting agrees with the size of the set of matching positions. */
  lemma {:induction false} CountIfIsMatchingSize<T>(s: seq<T>, p: T -> bool)
    ensures CountIf(s, p) == |Matching(s, p)|
    decreases |s|
  {
    if |s| > 0 {
      var n := |s| - 1;
      var front := s[..n];
      CountIfIsMatchingSize(front, p);
      var last := if p(s[n]) then {n} else {};
      assert Matching(s, p) == Matching(front, p) + last;
      assert Matching(front, p) !! last;
    }
  }

  /** Appending an element raises the count by one exactly when the element matches. */
  lemma CountIfAppend<T>(s: seq<T>, x: T, p: T -> bool)
    ensures CountIf(s + [x], p) == CountIf(s, p) + (if p(x) then 1 else 0)
  {
    assert (s + [x])[..|s|] == s;
  }

  /** Counting a concatenation adds the counts of its parts. */
  lemma {:induction false} CountIfConcat<T>(a: seq<T>, b: seq<T>, p: T -> bool)
    ensures CountIf(a + b, p) == CountIf(a, p) + CountIf(b, p)
    decreases |b|
  {
    if |b| > 0 {
      var n := |b| - 1;
      assert (a + b)[..|a + b| - 1] == a + b[..n];
      CountIfConcat(a, b[..n], p);
    } else {
      assert a + b == a;
    }
  }

  /** No element matches: the count is zero. */
  lemma {:induction false} CountIfNone<T>(s: seq<T>, p: T -> bool)
    requires forall i :: 0 <= i < |s| ==> !p(s[i])
    ensures CountIf(s, p) == 0
    decreases |s|
  {
    if |s| > 0 {
      CountIfNone(s[..|s| - 1], p);
    }
  }

  /** Every element matches: the count is the length. */
  lemma {:induction false} CountIfAll<T>(s: seq<T>, p: T -> bool)
    requires forall i :: 0 <= i < |s| ==> p(s[i])
    ensures CountIf(s, p) == |s|
    decreases |s|
  {
    if |s| > 0 {
      CountIfAll(s[..|s| - 1], p);
    }
  }

  predicate IsAvailable(bi: BookInstance) {
    bi.status == AvailableStatus
  }

  predicate IsFantasyGenre(g: Genre) {
    Text.IContains(g.name, FantasyKeyword)
  }

  predicate IsLotrBook(b: Book) {
    Text.IContains(b.title, LotrKeyword)
  }

  /** `BookInstance.objects.filter(status__exact='a').count()` */
  function AvailableCount(instances: seq<BookInstance>): nat {
    CountIf(instances, IsAvailable)
  }

  /** `Genre.objects.filter(name__icontains='Fantasy').count()` */
  function FantasyGenreCount(genres: seq<Genre>): nat {
    CountIf(genres, IsFantasyGenre)
  }

  /** `Book.objects.filter(title__icontains='Lord of the rings').count()` */
  function LotrBookCount(books: seq<Book>): nat {
    CountIf(books, IsLotrBook)
  }

  /** The context the `index` view renders. */
  function Index(c: Catalog): (r: Counts)
    ensures r.numBooks == |c.books|
    ensures r.numInstances == |c.instances|
    ensures r.numAuthors == |c.authors|
    ensures r.numInstancesAvailable <= r.numInstances
    ensures r.numFantasyGenres <= |c.genres|
    ensures r.numLotrBooks <= r.numBooks
  {
    Counts(
      |c.books|,
      |c.instances|,
      AvailableCount(c.instances),
      |c.authors|,
      FantasyGenreCount(c.genres),
      LotrBookCount(c.books))
  }

  /**
   Each filtered count is the number of positions whose record passes the
   filter: exactly the copies with status 'a', the genres whose name
   contains "fantasy" in any case, the books whose title contains "lord of
   the rings" in any case.
   */
  lemma IndexCountsMatchingRecords(c: Catalog)
    ensures Index(c).numInstancesAvailable
         == |set i | 0 <= i < |c.instances| && c.instances[i].status == AvailableStatus|
    ensures Index(c).numFantasyGenres
         == |set i | 0 <= i < |c.genres| && Text.IContains(c.genres[i].name, FantasyKeyword)|
    ensures Index(c).numLotrBooks
         == |set i | 0 <= i < |c.books| && Text.IContains(c.books[i].title, LotrKeyword)|
  {
    CountIfIsMatchingSize(c.instances, IsAvailable);
    assert Matching(c.instances, IsAvailable)
        == set i | 0 <= i < |c.instances| && c.instances[i].status == AvailableStatus;
    CountIfIsMatchingSize(c.genres, IsFantasyGenre);
    assert Matching(c.genres, IsFantasyGenre)
        == set i | 0 <= i < |c.genres| && Text.IContains(c.genres[i].name, FantasyKeyword);
    CountIfIsMatchingSize(c.books, IsLotrBook);
    assert Matching(c.books, IsLotrBook)
        == set i | 0 <= i < |c.books| && Text.IContains(c.books[i].title, LotrKeyword);
  }

  /** A new copy that is not available raises the instance count only. */
  lemma AddUnavailableInstance(c: Catalog, bi: BookInstance)
    requires bi.status != AvailableStatus
    ensures var after := Index(c.(instances := c.instances + [bi]));
      after == Index(c).(numInstances := Index(c).numInstances + 1)
  {
    CountIfAppend(c.instances, bi, IsAvailable);
  }

  /** A new available copy raises both the instance count and the available count. */
  lemma AddAvailableInstance(c: Catalog, bi: BookInstance)
    requires bi.status == AvailableStatus
    ensures var after := Index(c.(instances := c.instances + [bi]));
      after == Index(c).(numInstances := Index(c).numInstances + 1,
                         numInstancesAvailable := Index(c).numInstancesAvailable + 1)
  {
    CountIfAppend(c.instances, bi, IsAvailable);
  }
}

=== FILE: dashboard_cases.dfy ===
/**
 The dashboard counts on the two fixtures the test suite builds: the home
 page API fixture and the `index` view fixture.
 */
module DashboardCases {
  import Text
  import opened Dashboard

  lemma ContainsItself(s: string)
    ensures Text.Contains(s, s)
  {
    assert Text.OccursAt(s, s, 0);
  }

  /** A title shorter than the keyword cannot contain it. */
  lemma ShortTitleNoMatch(t: string)
    requires |t| < |LotrKeyword|
    ensures !IsLotrBook(Book(t))
  {
  }

  lemma FantasyMatches()
    ensures IsFantasyGenre(Genre("Fantasy"))
    ensures IsFantasyGenre(Genre("High Fantasy"))
    ensures !IsFantasyGenre(Genre("Science Fiction"))
  {
    var needle := Text.Lower(FantasyKeyword);
    assert needle == "fantasy";
    ContainsItself(needle);
    var high := Text.Lower("High Fantasy");
    assert high == "high fantasy";
    assert high[5..12] == needle;
    assert Text.OccursAt(high, needle, 5);
    var sci := Text.Lower("Science Fiction");
    assert sci == "science fiction";
    Text.MissingCharExcludes(sci, needle, 6);
  }

  lemma LotrMatches()
    ensures IsLotrBook(Book("Lord of the rings"))
    ensures IsLotrBook(Book("Lord of The Rings"))
  {
    ContainsItself(Text.Lower(LotrKeyword));
    assert Text.Lower("Lord of The Rings") == "lord of the rings" == Text.Lower(LotrKeyword);
  }

  /** The home page fixture: 7 titled books plus "Lord of the rings", 14 copies of which 5 are on loan. */
  function HomePageFixture(): Catalog {
    var titles := ["Book Title 0", "Book Title 1", "Book Title 2", "Book Title 3",
                   "Book Title 2 0", "Book Title 2 1", "Book Title 2 2"];
    var onLoan := BookInstance("Some Imprint", 'o');
    var onShelf := BookInstance("Some Imprint", 'a');
    Catalog(
      seq(7, i requires 0 <= i < 7 => Book(titles[i])) + [Book("Lord of the rings")],
      seq(5, _ => onLoan) + seq(9, _ => onShelf),
      [Author("John", "Smith"), Author("John", "Doe")],
      [Genre("Fantasy"), Genre("High Fantasy"), Genre("Science Fiction")])
  }

  lemma HomePageAvailable()
    ensures AvailableCount(HomePageFixture().instances) == 9
  {
    var c := HomePageFixture();
    var loaned := c.instances[..5];
    var shelved := c.instances[5..];
    assert c.instances == loaned + shelved;
    CountIfConcat(loaned, shelved, IsAvailable);
    CountIfNone(loaned, IsAvailable);
    CountIfAll(shelved, IsAvailable);
  }

  lemma HomePageFantasy()
    ensures FantasyGenreCount(HomePageFixture().genres) == 2
  {
    var g := HomePageFixture().genres;
    FantasyMatches();
    assert IsFantasyGenre(g[0]) && IsFantasyGenre(g[1]) && !IsFantasyGenre(g[2]);
    var front := g[..2];
    assert g == front + [g[2]];
    CountIfAll(front, IsFantasyGenre);
    CountIfAppend(front, g[2], IsFantasyGenre);
  }

  /** Books whose first `n` titles are too short to match and whose last is a match count once. */
  lemma OneLotrAtEnd(books: seq<Book>)
    requires |books| >= 1 && IsLotrBook(books[|books| - 1])
    requires forall i :: 0 <= i < |books| - 1 ==> |books[i].title| < |LotrKeyword|
    ensures LotrBookCount(books) == 1
  {
    var titled := books[..|books| - 1];
    forall i | 0 <= i < |titled|
      ensures !IsLotrBook(titled[i])
    {
      ShortTitleNoMatch(titled[i].title);
    }
    CountIfNone(titled, IsLotrBook);
  }

  lemma HomePageLotr()
    ensures LotrBookCount(HomePageFixture().books) == 1
  {
    LotrMatches();
    OneLotrAtEnd(HomePageFixture().books);
  }

  lemma HomePageCounts()
    ensures Index(HomePageFixture()) == Counts(8, 14, 9, 2, 2, 1)
  {
    HomePageAvailable();
    HomePageFantasy();
    HomePageLotr();
  }

  /** The `index` view fixture: 3 authors with 2 books each, plus Tolkien and "Lord of The Rings". */
  function IndexViewFixture(): Catalog {
    var titles := ["BookTitle 0 0", "BookTitle 0 1", "BookTitle 1 0",
                   "BookTitle 1 1", "BookTitle 2 0", "BookTitle 2 1"];
    var copy := BookInstance("Unlikely Imprint, 2016", 'm');
    Catalog(
      seq(6, i requires 0 <= i < 6 => Book(titles[i])) + [Book("Lord of The Rings")],
      seq(6, _ => copy),
      [Author("Christian 0", "Surname 0"), Author("Christian 1", "Surname 1"),
       Author("Christian 2", "Surname 2"), Author("J.R.R", "Tolkien")],
      [Genre("Fantasy")])
  }

  lemma IndexViewLotr()
    ensures LotrBookCount(IndexViewFixture().books) == 1
  {
    LotrMatches();
    OneLotrAtEnd(IndexViewFixture().books);
  }

  lemma IndexViewFilters()
    ensures AvailableCount(IndexViewFixture().instances) == 0
    ensures FantasyGenreCount(IndexViewFixture().genres) == 1
  {
    var c := IndexViewFixture();
    CountIfNone(c.instances, IsAvailable);
    FantasyMatches();
    CountIfAll(c.genres, IsFantasyGenre);
  }

  lemma IndexViewCounts()
    ensures Index(IndexViewFixture()) == Counts(7, 6, 0, 4, 1, 1)
  {
    IndexViewLotr();
    IndexViewFilters();
  }
}

=== FILE: endpoints.dfy ===
/**
 Which permission classes guard each endpoint of the catalog API, and how
 the framework turns a failed permission check into a response: an
 anonymous caller gets "not authenticated" (401), an authenticated one gets
 "forbidden" (403).
 */
module Endpoints {
  import opened Permissions

  datatype PermissionClass = IsLibrarian | AllowAny | IsAuthenticated

  datatype Endpoint = Authors | Books | Register | RegisterLibrarian | Logout

  /**
   The permission classes guarding each endpoint. The four API views declare
   theirs. The book view set declares none and so falls back on the
   project's default permission setting, which is not part of this model;
   the book API tests expect anonymous creates, updates and deletes to
   succeed, so that default is taken to be the empty list.
   */
  function PermissionClasses(e: Endpoint): (classes: seq<PermissionClass>)
    ensures |classes| <= 1
    ensures classes == [] <==> e == Books
    ensures IsLibrarian in classes <==> e == Authors || e == RegisterLibrarian
    ensures AllowAny in classes <==> e == Register
    ensures IsAuthenticated in classes <==> e == Logout
  {
    match e
    case Authors => [IsLibrarian]
    case Books => []
    case Register => [AllowAny]
    case RegisterLibrarian => [IsLibrarian]
    case Logout => [IsAuthenticated]
  }

  /** Whether one permission class lets the request through. */
  function Allows(c: PermissionClass, m: Method, a: Actor): (ok: bool)
    ensures c == IsLibrarian ==> (ok <==> m in PermittedMethods(a))
    ensures c == AllowAny ==> ok
    ensures c == IsAuthenticated ==> (ok <==> a.Authenticated?)
  {
    match c
    case IsLibrarian => HasPermission(m, a)
    case AllowAny => true
    case IsAuthenticated => a.Authenticated?
  }

  datatype Outcome = Permit | NotAuthenticated | Forbidden

  /** The denial the framework reports: 401 for a caller who did not authenticate, 403 otherwise. */
  function Denial(a: Actor): (o: Outcome)
    ensures o != Permit
    ensures o == NotAuthenticated <==> a.Anonymous?
  {
    if a.Anonymous? then NotAuthenticated else Forbidden
  }

  /**
   The framework's permission check: every class in the list must allow
   the request; the first that does not decides the denial.
   */
  function CheckPermissions(classes: seq<PermissionClass>, m: Method, a: Actor): (o: Outcome)
    ensures o == Permit <==> forall i :: 0 <= i < |classes| ==> Allows(classes[i], m, a)
    ensures o != Permit ==> o == Denial(a)
  {
    if |classes| == 0 then Permit
    else if !Allows(classes[0], m, a) then Denial(a)
    else
      var rest := CheckPermissions(classes[1..], m, a);
      assert forall i :: 1 <= i < |classes| ==> classes[i] == classes[1..][i - 1];
      rest
  }

  function Decide(e: Endpoint, m: Method, a: Actor): Outcome {
    CheckPermissions(PermissionClasses(e), m, a)
  }

  /** The status code of a denial. */
  function DenialStatus(o: Outcome): (code: nat)
    requires o != Permit
    ensures code == 401 || code == 403
    ensures code == 401 <==> o == NotAuthenticated
  {
    if o == NotAuthenticated then 401 else 403
  }

  /** The actions a model view set routes. */
  datatype Action = List | Retrieve | Create | Update | PartialUpdate | Destroy

  function MethodOf(act: Action): Method {
    match act
    case List => GET
    case Retrieve => GET
    case Create => POST
    case Update => PUT
    case PartialUpdate => PATCH
    case Destroy => DELETE
  }

  /** The status of an action that succeeds: 201 for a creation, 204 for a deletion, 200 otherwise. */
  function SuccessStatus(act: Action): nat {
    match act
    case Create => 201
    case Destroy => 204
    case _ => 200
  }

  /**
   The status a view-set request on authors or books answers, given valid
   data and an existing id: the permission check first, then the action.
   */
  function ViewSetStatus(e: Endpoint, act: Action, a: Actor): (code: nat)
    requires e == Authors || e == Books
    ensures Decide(e, MethodOf(act), a) == Permit ==> code == SuccessStatus(act)
    ensures Decide(e, MethodOf(act), a) != Permit ==>
      (code == 401 <==> a.Anonymous?) && (code == 403 <==> a.Authenticated?)
  {
    var o := Decide(e, MethodOf(act), a);
    if o == Permit then SuccessStatus(act) else DenialStatus(o)
  }

  /** Anyone may list or retrieve authors. */
  lemma AuthorReadsOpen(act: Action, a: Actor)
    requires act == List || act == Retrieve
    ensures ViewSetStatus(Authors, act, a) == 200
  {
  }

  /** Creating, updating or deleting an author succeeds exactly for librarians. */
  lemma AuthorWritesIffLibrarian(act: Action, a: Actor)
    requires act != List && act != Retrieve
    ensures Decide(Authors, MethodOf(act), a) == Permit <==> InLibrarians(a)
    ensures ViewSetStatus(Authors, act, a) == SuccessStatus(act) <==> InLibrarians(a)
  {
  }

  /** A denied author write answers 401 to an anonymous caller and 403 to an authenticated non-librarian. */
  lemma AuthorWriteDenials(act: Action, gs: set<string>)
    requires act != List && act != Retrieve
    requires LibrariansGroup !in gs
    ensures ViewSetStatus(Authors, act, Anonymous) == 401
    ensures ViewSetStatus(Authors, act, Authenticated(gs)) == 403
  {
  }

  /** Book requests are never denied, writes included, unlike author writes. */
  lemma BooksUnrestricted(act: Action, a: Actor)
    ensures Decide(Books, MethodOf(act), a) == Permit
    ensures ViewSetStatus(Books, act, a) == SuccessStatus(act)
  {
  }

  /** The anonymous book requests of the test suite: list and retrieve 200, create 201, update 200, delete 204. */
  lemma AnonymousBookStatuses()
    ensures ViewSetStatus(Books, List, Anonymous) == 200
    ensures ViewSetStatus(Books, Retrieve, Anonymous) == 200
    ensures ViewSetStatus(Books, Create, Anonymous) == 201
    ensures ViewSetStatus(Books, Update, Anonymous) == 200
    ensures ViewSetStatus(Books, Destroy, Anonymous) == 204
  {
  }

  /** Plain registration is open to every caller and every method passes the check. */
  lemma RegisterOpen(m: Method, a: Actor)
    ensures Decide(Register, m, a) == Permit
  {
  }

  /** Librarian registration is guarded exactly like author writes. */
  lemma RegisterLibrarianGuard(m: Method, a: Actor)
    ensures Decide(RegisterLibrarian, m, a) == Decide(Authors, m, a)
    ensures Decide(RegisterLibrarian, POST, a) == Permit <==> InLibrarians(a)
  {
  }

  /** Logout only asks for an authenticated caller, whatever the groups. */
  lemma LogoutNeedsAuthentication(m: Method, a: Actor)
    ensures Decide(Logout, m, a) == Permit <==> a.Authenticated?
    ensures a.Anonymous? ==> Decide(Logout, m, a) == NotAuthenticated
  {
  }
}

=== FILE: js_values.dfy ===
/**
 The JavaScript values the front end handles: JSON payload members, form
 fields and React state. Only the conversions the components rely on are
 modelled: string concatenation (`"x" + v`), truthiness (`v ? a : b`),
 loose comparison with null (`v == null`), strict comparison with true
 (`v === true`) and how React renders a `{v}` child.
 */
module JsValues {
  import Text

  datatype JsValue = Undefined | Null | Bool(b: bool) | Int(i: int) | Str(s: string)

  /** A form field or record member typed `string | null | undefined`. */
  type OptString = v: JsValue | v.Undefined? || v.Null? || v.Str? witness Undefined

  /**
   `Number.MAX_SAFE_INTEGER`, 2^53 - 1. Up to it every integer is a double
   and `String(n)` prints its exact decimal digits. Above it, `String`
   prints the shortest digits that read back as the same double
   (`String(2 ** 60)` is "1152921504606847000").
   */
  const MaxSafeInteger: nat := 9_007_199_254_740_991

  /**
   From 10^21 on, JavaScript writes a number in exponent form ("1e+21").
   Below it, distinct doubles still print as distinct digit strings.
   */
  const ExponentFormFrom: nat := 1_000_000_000_000_000_000_000

  /**
   `String(n)` for an integer, as its exact decimal digits: the program's
   output for every `n` with `|n| <= MaxSafeInteger`.
   */
  function IntToString(i: int): (r: string)
    ensures i >= 0 ==> r == Text.Decimal(i)
    ensures i < 0 ==> r == "-" + Text.Decimal(-i)
  {
    if i < 0 then "-" + Text.Decimal(-i) else Text.Decimal(i)
  }

  /** The string `v` becomes when it is concatenated to a string with `+`. */
  function ToJsString(v: JsValue): string {
    match v
    case Undefined => "undefined"
    case Null => "null"
    case Bool(b) => if b then "true" else "false"
    case Int(i) => IntToString(i)
    case Str(s) => s
  }

  /** JavaScript truthiness: `undefined`, `null`, `false`, `0` and `""` are falsy. */
  predicate Truthy(v: JsValue) {
    match v
    case Undefined => false
    case Null => false
    case Bool(b) => b
    case Int(i) => i != 0
    case Str(s) => s != ""
  }

  /** `v == null`, which holds for both `null` and `undefined`. */
  predicate LooselyNull(v: JsValue) {
    v.Undefined? || v.Null?
  }

  /** `v === true`. */
  predicate StrictlyTrue(v: JsValue) {
    v == Bool(true)
  }

  /** The text React renders for a `{v}` child: nothing for null, undefined and booleans. */
  function RenderText(v: JsValue): string {
    match v
    case Int(i) => IntToString(i)
    case Str(s) => s
    case _ => ""
  }

  /** Property access on a decoded JSON object: a missing member reads as `undefined`. */
  function Member(obj: map<string, JsValue>, key: string): (v: JsValue)
    ensures key !in obj ==> v == Undefined
    ensures key in obj ==> v == obj[key]
  {
    if key in obj then obj[key] else Undefined
  }

  /** Appending a non-negative integer to a prefix can be undone: the digits read back as the integer. */
  lemma {:induction false} IntSuffixRoundTrip(prefix: string, n: nat)
    ensures var path := prefix + ToJsString(Int(n));
      && |prefix| < |path|
      && path[..|prefix|] == prefix
      && Text.AllDigits(path[|prefix|..])
      && Text.ParseDecimal(path[|prefix|..]) == n
  {
    var path := prefix + ToJsString(Int(n));
    assert path[|prefix|..] == Text.Decimal(n);
    Text.ParseDecimalInverts(n);
  }
}

=== FILE: permissions.dfy ===
/**
 The custom permission `IsLibrarian` of the catalog API: safe (read-only)
 HTTP methods are open to everyone, every other method is reserved to
 members of the group named "Librarians".
 */
module Permissions {

  datatype Method = GET | HEAD | OPTIONS | POST | PUT | PATCH | DELETE

  /** The framework's SAFE_METHODS tuple: ('GET', 'HEAD', 'OPTIONS'). */
  const SafeMethods: set<Method> := {GET, HEAD, OPTIONS}

  const AllMethods: set<Method> := {GET, HEAD, OPTIONS, POST, PUT, PATCH, DELETE}

  /** `AllMethods` lists every method. */
  lemma AllMethodsListed(m: Method)
    ensures m in AllMethods
  {
    match m
    case GET => case HEAD => case OPTIONS => case POST => case PUT => case PATCH => case DELETE =>
  }

  predicate IsSafe(m: Method) {
    m in SafeMethods
  }

  /** The name of the group that grants write access. */
  const LibrariansGroup := "Librarians"

  /**
   The caller of a request. An anonymous caller has no groups (the
   framework's anonymous user answers every group query with nothing).
   */
  datatype Actor = Anonymous | Authenticated(groups: set<string>)

  function GroupsOf(a: Actor): set<string> {
    match a
    case Anonymous => {}
    case Authenticated(gs) => gs
  }

  /** The group filter `name="Librarians"` finds a match: the name must be equal, case included. */
  predicate InLibrarians(a: Actor) {
    LibrariansGroup in GroupsOf(a)
  }

  /** Reference description of the policy: the set of methods an actor may use. */
  function PermittedMethods(a: Actor): (ms: set<Method>)
    ensures SafeMethods <= ms <= AllMethods
    ensures InLibrarians(a) ==> ms == AllMethods
    ensures !InLibrarians(a) ==> ms == SafeMethods
  {
    if InLibrarians(a) then AllMethods else SafeMethods
  }

  /**
   `IsLibrarian.has_permission`: a safe method, or a caller in "Librarians".
   The request's view is not consulted, so the model takes no view argument
   at all. The decision agrees with the reference set for every method and
   actor.
   */
  function HasPermission(m: Method, a: Actor): (ok: bool)
    ensures ok <==> m in PermittedMethods(a)
  {
    AllMethodsListed(m);
    IsSafe(m) || InLibrarians(a)
  }

  /** Safe methods are permitted for every actor, anonymous included. */
  lemma SafeMethodsAlwaysPermitted(m: Method, a: Actor)
    requires IsSafe(m)
    ensures HasPermission(m, a)
  {
  }

  /** A non-safe method is permitted exactly for members of "Librarians". */
  lemma UnsafeMethodIffLibrarian(m: Method, a: Actor)
    requires !IsSafe(m)
    ensures HasPermission(m, a) <==> a.Authenticated? && LibrariansGroup in a.groups
  {
  }

  /** Anonymous callers are denied every non-safe method. */
  lemma AnonymousDeniedWrites(m: Method)
    requires !IsSafe(m)
    ensures !HasPermission(m, Anonymous)
  {
  }

  /** A librarian is permitted every method. */
  lemma LibrarianPermittedEverything(m: Method, gs: set<string>)
    requires LibrariansGroup in gs
    ensures HasPermission(m, Authenticated(gs))
  {
  }

  /** Gaining groups (in particular "Librarians") never turns a permit into a denial. */
  lemma PermissionMonotonic(m: Method, gs: set<string>, more: set<string>)
    requires gs <= more
    ensures HasPermission(m, Authenticated(gs)) ==> HasPermission(m, Authenticated(more))
  {
  }

  /** Only the "Librarians" group matters: other groups neither grant nor remove anything. */
  lemma OtherGroupsIrrelevant(m: Method, gs: set<string>, g: string)
    requires g != LibrariansGroup
    ensures HasPermission(m, Authenticated(gs + {g})) == HasPermission(m, Authenticated(gs))
  {
  }
}

=== FILE: registration.dfy ===
/**
 The account endpoints of the catalog API: plain registration (open to
 anyone), librarian registration (reserved to librarians, the new user joins
 "Librarians") and logout (blacklists the caller's refresh token).

 The user store is a map from username to group names. Every handler runs
 the permission check first, as the framework does before dispatching, and
 answers 405 for a method the view has no handler for.
 */
module Registration {
  import opened Permissions
  import opened Endpoints

  type Registry = map<string, set<string>>

  const CreatedMessage := "User Created Successfully.  Now perform Login to get your token"
  const DuplicateUsernameMessage := "A user with that username already exists."
  const LogoutMessage := "Success"

  datatype Body =
    | UserCreated(username: string, groups: set<string>, message: string)
    | FieldErrors(errors: map<string, seq<string>>)
    | Denied(outcome: Outcome)
    | Metadata
    | MethodNotAllowed
    | Message(text: string)

  datatype Response = Response(status: nat, body: Body)

  /** The state after a request, with the response it answered. */
  datatype Exchange<S> = Exchange(state: S, response: Response)

  predicate IsRegisterEndpoint(e: Endpoint) {
    e == Register || e == RegisterLibrarian
  }

  /** The groups the endpoint's serializer gives a new user. */
  function InitialGroups(e: Endpoint): (gs: set<string>)
    requires IsRegisterEndpoint(e)
    ensures gs <= {LibrariansGroup}
    ensures InLibrarians(Authenticated(gs)) <==> e == RegisterLibrarian
  {
    if e == RegisterLibrarian then {LibrariansGroup} else {}
  }

  /** The field errors validation reports: a taken username is the only one modelled. */
  function Validate(reg: Registry, username: string): (errors: map<string, seq<string>>)
    ensures errors == map[] <==> username !in reg
  {
    if username in reg then
      var errors := map["username" := [DuplicateUsernameMessage]];
      assert "username" in errors;
      errors
    else
      map[]
  }

  /** The POST handler: validate, then save the user and answer with it and the fixed message. */
  function RegisterPost(e: Endpoint, reg: Registry, username: string): (x: Exchange<Registry>)
    requires IsRegisterEndpoint(e)
    ensures username in reg ==>
      x == Exchange(reg, Response(400, FieldErrors(map["username" := [DuplicateUsernameMessage]])))
    ensures username !in reg ==>
      && x.response == Response(200, UserCreated(username, InitialGroups(e), CreatedMessage))
      && x.state.Keys == reg.Keys + {username}
      && |x.state| == |reg| + 1
      && x.state[username] == InitialGroups(e)
      && (forall u :: u in reg ==> x.state[u] == reg[u])
  {
    var errors := Validate(reg, username);
    if errors != map[] then
      Exchange(reg, Response(400, FieldErrors(errors)))
    else
      var saved := reg[username := InitialGroups(e)];
      assert saved.Keys == reg.Keys + {username};
      Exchange(saved, Response(200, UserCreated(username, InitialGroups(e), CreatedMessage)))
  }

  /** A request to either registration endpoint. */
  function HandleRegister(e: Endpoint, m: Method, a: Actor, reg: Registry, username: string)
    : (x: Exchange<Registry>)
    requires IsRegisterEndpoint(e)
    ensures x.state != reg <==> Decide(e, m, a) == Permit && m == POST && username !in reg
    ensures x.state != reg ==> x.state == reg[username := InitialGroups(e)]
    ensures x.response.status == 200 && m != OPTIONS <==> x.state != reg
    ensures x.response.status == 400 <==> Decide(e, m, a) == Permit && m == POST && username in reg
    ensures x.response.status == 401 <==> Decide(e, m, a) == NotAuthenticated
    ensures x.response.status == 403 <==> Decide(e, m, a) == Forbidden
    ensures x.response.status == 405 <==> Decide(e, m, a) == Permit && m != POST && m != OPTIONS
  {
    var o := Decide(e, m, a);
    if o != Permit then
      Exchange(reg, Response(DenialStatus(o), Denied(o)))
    else if m == POST then
      RegisterPost(e, reg, username)
    else if m == OPTIONS then
      Exchange(reg, Response(200, Metadata))
    else
      Exchange(reg, Response(405, MethodNotAllowed))
  }

  /** A plainly registered user has no groups, so is no librarian. */
  lemma {:induction false} RegisteredUserIsNoLibrarian(a: Actor, reg: Registry, username: string)
    requires username !in reg
    ensures var x := HandleRegister(Register, POST, a, reg, username);
      && username in x.state
      && x.state[username] == {}
      && !InLibrarians(Authenticated(x.state[username]))
  {
    RegisterOpen(POST, a);
  }

  /** A librarian registering a fresh username creates a member of "Librarians". */
  lemma {:induction false} RegisteredLibrarianIsLibrarian(gs: set<string>, reg: Registry, username: string)
    requires LibrariansGroup in gs
    requires username !in reg
    ensures var x := HandleRegister(RegisterLibrarian, POST, Authenticated(gs), reg, username);
      && x.response == Response(200, UserCreated(username, {LibrariansGroup}, CreatedMessage))
      && |x.state| == |reg| + 1
      && InLibrarians(Authenticated(x.state[username]))
  {
    RegisterLibrarianGuard(POST, Authenticated(gs));
  }

  /** Registering a taken username answers 400 with the username error and creates nobody. */
  lemma DuplicateRegistrationRejected(e: Endpoint, a: Actor, reg: Registry, username: string)
    requires IsRegisterEndpoint(e) && Decide(e, POST, a) == Permit
    requires username in reg
    ensures HandleRegister(e, POST, a, reg, username)
         == Exchange(reg, Response(400, FieldErrors(map["username" := [DuplicateUsernameMessage]])))
  {
  }

  /** The logout view: an authenticated caller's refresh token joins the blacklist. */
  function HandleLogout(m: Method, a: Actor, blacklist: set<string>, refresh: string)
    : (x: Exchange<set<string>>)
    ensures Decide(Logout, m, a) == Permit && m == POST ==>
      x == Exchange(blacklist + {refresh}, Response(200, Message(LogoutMessage)))
    ensures !(a.Authenticated? && m == POST) ==> x.state == blacklist
    ensures a.Anonymous? ==> x.response.status == 401
    ensures a.Authenticated? && m == OPTIONS ==> x.response == Response(200, Metadata)
    ensures a.Authenticated? && m != POST && m != OPTIONS ==> x.response.status == 405
  {
    var o := Decide(Logout, m, a);
    if o != Permit then
      Exchange(blacklist, Response(DenialStatus(o), Denied(o)))
    else if m == POST then
      Exchange(blacklist + {refresh}, Response(200, Message(LogoutMessage)))
    else if m == OPTIONS then
      Exchange(blacklist, Response(200, Metadata))
    else
      Exchange(blacklist, Response(405, MethodNotAllowed))
  }

  /**
   A second logout with the same refresh token leaves the blacklist as the
   first left it. The program itself refuses that second request: the token
   library raises on a blacklisted token and the view does not catch it, so
   the caller gets a server error (500), with the blacklist unchanged. The
   model answers 200 instead; only the state is claimed here.
   */
  lemma LogoutIdempotent(gs: set<string>, blacklist: set<string>, refresh: string)
    ensures var once := HandleLogout(POST, Authenticated(gs), blacklist, refresh).state;
      HandleLogout(POST, Authenticated(gs), once, refresh).state == once
  {
  }
}

=== FILE: text.dfy ===
/**
 String helpers shared by the back end and the front end: ASCII lower-casing,
 substring search (the basis of Django's `icontains` lookup), JavaScript's
 `replace(/c/g, d)`, `Array.prototype.join` and the decimal rendering of
 natural numbers that JavaScript's string concatenation performs.
 */
module Text {

  predicate IsAsciiUpper(c: char) {
    'A' <= c <= 'Z'
  }

  /** Lower-cases one character; only ASCII letters are affected. */
  function LowerChar(c: char): (r: char)
    ensures IsAsciiUpper(c) ==> r as int == c as int + 32
    ensures !IsAsciiUpper(c) ==> r == c
    ensures !IsAsciiUpper(r)
  {
    if IsAsciiUpper(c) then (c as int + 32) as char else c
  }

  /** Lower-cases a whole string, character by character. */
  function Lower(s: string): string {
    seq(|s|, i requires 0 <= i < |s| => LowerChar(s[i]))
  }

  /** `needle` occurs in `hay` starting at index `i`. */
  predicate OccursAt(hay: string, needle: string, i: int) {
    0 <= i && i + |needle| <= |hay| && hay[i..i + |needle|] == needle
  }

  lemma OccursAtShift(hay: string, needle: string, i: int)
    requires |hay| > 0 && i >= 0
    ensures OccursAt(hay[1..], needle, i) <==> OccursAt(hay, needle, i + 1)
  {
    if 0 <= i && i + |needle| <= |hay| - 1 {
      assert hay[1..][i..i + |needle|] == hay[i + 1..i + 1 + |needle|];
    }
  }

  /** Substring test, scanning `hay` from the left. */
  function Contains(hay: string, needle: string): (r: bool)
    ensures r <==> exists i :: OccursAt(hay, needle, i)
    decreases |hay|
  {
    if |needle| > |hay| then
      false
    else if hay[..|needle|] == needle then
      assert OccursAt(hay, needle, 0);
      true
    else
      var rest := Contains(hay[1..], needle);
      assert rest ==> exists i :: OccursAt(hay, needle, i) by {
        if rest {
          var i :| OccursAt(hay[1..], needle, i);
          OccursAtShift(hay, needle, i);
        }
      }
      assert (exists i :: OccursAt(hay, needle, i)) ==> rest by {
        if i :| OccursAt(hay, needle, i) {
          assert i != 0;
          OccursAtShift(hay, needle, i - 1);
        }
      }
      rest
  }

  /**
   The index of the first occurrence of `needle` in `hay`, or -1 when there
   is none. The program never searches its labels; this is the reader's
   split, used to state that a label built by concatenation reads back.
   */
  function FirstOccurrence(hay: string, needle: string): (r: int)
    ensures r == -1 ==> forall i :: !OccursAt(hay, needle, i)
    ensures r != -1 ==> OccursAt(hay, needle, r) && forall i :: 0 <= i < r ==> !OccursAt(hay, needle, i)
    decreases |hay|
  {
    if |needle| > |hay| then
      -1
    else if hay[..|needle|] == needle then
      assert OccursAt(hay, needle, 0);
      0
    else
      var rest := FirstOccurrence(hay[1..], needle);
      assert !OccursAt(hay, needle, 0);
      assert forall i :: i >= 1 ==> (OccursAt(hay[1..], needle, i - 1) <==> OccursAt(hay, needle, i)) by {
        forall i | i >= 1
          ensures OccursAt(hay[1..], needle, i - 1) <==> OccursAt(hay, needle, i)
        {
          OccursAtShift(hay, needle, i - 1);
        }
      }
      if rest == -1 then -1 else rest + 1
  }

  /**
   When `p` occurs nowhere before the end of `a`, the first occurrence of
   `p` in `a + p + b` is the one right after `a`, and splitting there gives
   back `a` and `b`.
   */
  lemma FirstOccurrenceSplits(a: string, p: string, b: string)
    requires forall i :: 0 <= i < |a| ==> !OccursAt(a + p + b, p, i)
    ensures var s := a + p + b;
      && FirstOccurrence(s, p) == |a|
      && s[..|a|] == a
      && s[|a| + |p|..] == b
  {
    var s := a + p + b;
    assert s[|a|..|a| + |p|] == p;
    assert OccursAt(s, p, |a|);
  }

  /** A string missing one of the needle's characters cannot contain the needle. */
  lemma MissingCharExcludes(hay: string, needle: string, j: int)
    requires 0 <= j < |needle| && needle[j] !in hay
    ensures !Contains(hay, needle)
  {
  }

  /** `needle` matches `hay` at index `i` when letters are compared regardless of (ASCII) case. */
  predicate MatchesAtIgnoringCase(hay: string, needle: string, i: int) {
    && 0 <= i && i + |needle| <= |hay|
    && forall k :: 0 <= k < |needle| ==> LowerChar(hay[i + k]) == LowerChar(needle[k])
  }

  /** Searching the lower-cased strings finds exactly the case-insensitive matches. */
  lemma LowerOccursAtIffMatches(hay: string, needle: string)
    ensures forall i :: OccursAt(Lower(hay), Lower(needle), i) <==> MatchesAtIgnoringCase(hay, needle, i)
  {
    forall i
      ensures OccursAt(Lower(hay), Lower(needle), i) <==> MatchesAtIgnoringCase(hay, needle, i)
    {
      if 0 <= i && i + |needle| <= |hay| {
        var window := Lower(hay)[i..i + |needle|];
        assert forall k :: 0 <= k < |needle| ==> window[k] == LowerChar(hay[i + k]);
        assert forall k :: 0 <= k < |needle| ==> Lower(needle)[k] == LowerChar(needle[k]);
        if MatchesAtIgnoringCase(hay, needle, i) {
          assert window == Lower(needle);
        }
      }
    }
  }

  /** Case-insensitive (ASCII) substring test: Django's `icontains`, searching the lower-cased strings. */
  predicate IContains(hay: string, needle: string) {
    Contains(Lower(hay), Lower(needle))
  }

  /** `icontains` holds exactly when the needle matches somewhere, letters compared regardless of case. */
  lemma IContainsIgnoresCase(hay: string, needle: string)
    ensures IContains(hay, needle) <==> exists i :: MatchesAtIgnoringCase(hay, needle, i)
  {
    LowerOccursAtIffMatches(hay, needle);
  }

  /** JavaScript `s.replace(/from/g, to)` for single characters. */
  function ReplaceChar(s: string, from: char, to: char): (r: string)
    ensures |r| == |s|
    ensures forall i :: 0 <= i < |s| ==> r[i] == (if s[i] == from then to else s[i])
  {
    if |s| == 0 then [] else [if s[0] == from then to else s[0]] + ReplaceChar(s[1..], from, to)
  }

  /** After replacing every `from` by a different `to`, no `from` is left. */
  lemma ReplaceCharRemoves(s: string, from: char, to: char)
    requires from != to
    ensures from !in ReplaceChar(s, from, to)
  {
  }

  /** Replacing twice is the same as replacing once. */
  lemma ReplaceCharIdempotent(s: string, from: char, to: char)
    ensures ReplaceChar(ReplaceChar(s, from, to), from, to) == ReplaceChar(s, from, to)
  {
  }

  /** JavaScript `parts.join(sep)`. */
  function Join(parts: seq<string>, sep: string): (r: string)
    ensures |parts| == 0 ==> r == ""
    ensures |parts| == 1 ==> r == parts[0]
    ensures |parts| >= 1 ==> |parts[0]| <= |r| && r[..|parts[0]|] == parts[0]
  {
    if |parts| == 0 then ""
    else if |parts| == 1 then parts[0]
    else parts[0] + sep + Join(parts[1..], sep)
  }

  /** Number of (possibly overlapping) occurrences of a non-empty `p` in `s`. */
  function Occurrences(s: string, p: string): (n: nat)
    requires |p| > 0
    decreases |s|
  {
    if |s| < |p| then 0
    else (if s[..|p|] == p then 1 else 0) + Occurrences(s[1..], p)
  }

  lemma {:induction false} OccurrencesZeroIffAbsent(s: string, p: string)
    requires |p| > 0
    ensures Occurrences(s, p) == 0 <==> !Contains(s, p)
    decreases |s|
  {
    if |s| < |p| {
      assert !Contains(s, p);
    } else if s[..|p|] == p {
      assert OccursAt(s, p, 0);
    } else {
      OccurrencesZeroIffAbsent(s[1..], p);
      assert Contains(s[1..], p) <==> Contains(s, p) by {
        if i :| OccursAt(s, p, i) {
          assert i != 0;
          OccursAtShift(s, p, i - 1);
        }
        if i :| OccursAt(s[1..], p, i) {
          OccursAtShift(s, p, i);
        }
      }
    }
  }

  const CommaSpace := ", "

  /**
   Splicing ", " between two strings adds exactly one occurrence of ", ":
   the comma of the separator cannot follow a trailing comma to form one,
   nor can its space start one.
   */
  lemma {:induction false} OccurrencesAroundSeparator(a: string, b: string)
    ensures Occurrences(a + CommaSpace + b, CommaSpace)
         == Occurrences(a, CommaSpace) + 1 + Occurrences(b, CommaSpace)
    decreases |a|
  {
    var s := a + CommaSpace + b;
    if |a| == 0 {
      assert s == CommaSpace + b;
      assert s[1..] == " " + b;
      assert (" " + b)[1..] == b;
      if |" " + b| >= 2 {
        assert (" " + b)[..2][0] == ' ';
      }
    } else {
      OccurrencesAroundSeparator(a[1..], b);
      assert s[1..] == a[1..] + CommaSpace + b;
      if |a| == 1 {
        assert s[..2][1] == ',';
        assert a[1..] == [];
      } else {
        assert s[..2] == a[..2];
      }
    }
  }

  /** With `n >= 1` parts that contain no ", ", `Join(parts, ", ")` holds exactly `n - 1` of them. */
  lemma {:induction false} JoinSeparatorCount(parts: seq<string>)
    requires |parts| >= 1
    requires forall k :: 0 <= k < |parts| ==> !Contains(parts[k], CommaSpace)
    ensures Occurrences(Join(parts, CommaSpace), CommaSpace) == |parts| - 1
    decreases |parts|
  {
    OccurrencesZeroIffAbsent(parts[0], CommaSpace);
    if |parts| > 1 {
      JoinSeparatorCount(parts[1..]);
      OccurrencesAroundSeparator(parts[0], Join(parts[1..], CommaSpace));
    }
  }

  predicate IsDigit(c: char) {
    '0' <= c <= '9'
  }

  function DigitChar(d: nat): (c: char)
    requires d < 10
    ensures IsDigit(c)
  {
    ('0' as int + d) as char
  }

  function DigitValue(c: char): (d: nat)
    requires IsDigit(c)
    ensures d < 10
  {
    c as int - '0' as int
  }

  predicate AllDigits(s: string) {
    forall i :: 0 <= i < |s| ==> IsDigit(s[i])
  }

  /** Decimal rendering of a natural number, as JavaScript's `String(n)`. */
  function Decimal(n: nat): (r: string)
    ensures |r| >= 1 && AllDigits(r)
    ensures |r| > 1 ==> r[0] != '0'
    decreases n
  {
    if n < 10 then [DigitChar(n)] else Decimal(n / 10) + [DigitChar(n % 10)]
  }

  /** Reads a string of decimal digits back as a number. */
  function ParseDecimal(s: string): nat
    requires AllDigits(s)
  {
    if |s| == 0 then 0 else ParseDecimal(s[..|s| - 1]) * 10 + DigitValue(s[|s| - 1])
  }

  /** Reading back a rendered number gives the number. */
  lemma {:induction false} ParseDecimalInverts(n: nat)
    ensures ParseDecimal(Decimal(n)) == n
    decreases n
  {
    var r := Decimal(n);
    if n < 10 {
      assert r[..|r| - 1] == [];
    } else {
      ParseDecimalInverts(n / 10);
      assert r[..|r| - 1] == Decimal(n / 10);
    }
  }

  /** Different numbers render differently. */
  lemma DecimalInjective(m: nat, n: nat)
    ensures Decimal(m) == Decimal(n) ==> m == n
  {
    ParseDecimalInverts(m);
    ParseDecimalInverts(n);
  }
}

=== FILE: tokens.dfy ===
/**
 Token issuance with the custom `isLibrarian` claim. The token library's
 own claims (token type, expiry, identifier, user id) are taken as a given
 base payload; signing, expiry and refresh are not modelled.
 */
module Tokens {
  import opened JsValues
  import opened Permissions
  import Registration

  type Claims = map<string, JsValue>

  const IsLibrarianClaim := "isLibrarian"

  /**
   `get_token`: the library's token for the user, plus an `isLibrarian`
   claim that is `True` when the user belongs to a group named "Librarians"
   and `False` otherwise.
   */
  function GetToken(base: Claims, groups: set<string>): (t: Claims)
    ensures t.Keys == base.Keys + {IsLibrarianClaim}
    ensures t[IsLibrarianClaim].Bool?
    ensures t[IsLibrarianClaim] == Bool(true) <==> LibrariansGroup in groups
    ensures forall k :: k in base && k != IsLibrarianClaim ==> t[k] == base[k]
  {
    if LibrariansGroup in groups then
      base[IsLibrarianClaim := Bool(true)]
    else
      base[IsLibrarianClaim := Bool(false)]
  }

  datatype TokenResult = Issued(claims: Claims) | InvalidCredentials

  /**
   The token endpoint: an unknown username or a wrong password is refused,
   otherwise the token is built from the user's groups at this moment.
   Whether the password matches is an input (hashing is not modelled).
   */
  function IssueToken(reg: Registration.Registry, username: string, passwordMatches: bool, base: Claims)
    : (r: TokenResult)
    ensures r.Issued? <==> username in reg && passwordMatches
    ensures r.Issued? ==> r.claims == GetToken(base, reg[username])
  {
    if username in reg && passwordMatches then Issued(GetToken(base, reg[username])) else InvalidCredentials
  }

  /** The claim says exactly what the `IsLibrarian` permission decides for a write. */
  lemma ClaimMatchesPermission(base: Claims, groups: set<string>, m: Method)
    requires !IsSafe(m)
    ensures GetToken(base, groups)[IsLibrarianClaim] == Bool(HasPermission(m, Authenticated(groups)))
  {
  }

  /**
   The claim is fixed when the token is issued: a token issued before the
   user joins "Librarians" says `False`, one issued afterwards says `True`.
   */
  lemma ClaimFixedAtIssuance(reg: Registration.Registry, username: string, base: Claims)
    requires username in reg && LibrariansGroup !in reg[username]
    ensures var before := IssueToken(reg, username, true, base);
      var promoted := reg[username := reg[username] + {LibrariansGroup}];
      var after := IssueToken(promoted, username, true, base);
      && before.Issued? && before.claims[IsLibrarianClaim] == Bool(false)
      && after.Issued? && after.claims[IsLibrarianClaim] == Bool(true)
  {
  }
}
